=== FILE: README.md ===
# Scalping bot: signal-and-risk core in Dafny

This project models the core of a forex/gold scalping bot (`bot.py`, class
`ProfessionalScalpingBot`). The bot polls a market-data provider for three
pairs (EURUSD, XAUUSD, GBPJPY), turns quotes and candles into BUY/SELL
signals, and guards itself with two mechanisms. A per-minute call budget and
a response cache protect the provider. A circuit breaker with per-pair
cooldowns protects against losing streaks.

The model has nine modules:

- `Wrappers`: the optional-value type that stands for Python's `None`.
- `Config`: the pair table (precision, pip size, profit and loss distances,
  volume threshold, maximum spread, ...), the call budget of 30, and the
  parsing of a user-typed pair name (upper-cased, then matched).
- `Sessions`: the UTC hour of a Unix timestamp, the four session flags
  (Tokyo, London, New York, overlap), and the market-hours test of the risk
  gate.
- `Engine`: one cycle's selection logic of the signal loop. This is which
  pairs are polled under a session snapshot, and the 80% soft budget valve.
- `Fetcher`: `api_request` and the cache cleanup as pure functions of a
  `FetchState` (call counter, window start, cache). The provider's answer is
  an input.
- `Risk`: the risk state (loss counter, halt time, cooldowns, trade log,
  balance), its transitions (outcome report, resume, manual cooldown), its
  invariant, and the trading-allowed predicate.
- `Signals`: the decision rule of `analyze_pair`. It covers the spread
  filter, the candle-count checks, the volume surge, the strict BUY / else
  SELL rule, and the take-profit and stop-loss arithmetic.
- `Stats`: win count, win rate and the performance report's profit factor.
- `Bot`: class `ScalpingBot`. Its fields are updated in place by
  `ApiRequest`, `CleanupCache`, `UpdatePerformance`, `ResumeTrading`,
  `CooldownPair` and `RefreshSessions`. Each method's postcondition ties the
  new fields to the pure transition of the module above. The class invariant
  `Valid()` carries the risk invariant.

Clock readings are `real` seconds and are passed in as `now`. The UTC hour
is derived from the same instant (`Sessions.UtcHour`). A sleep in
`api_request` is modelled as advancing the returned clock to the end of the
budget window.

Properties worth noting:

- The loss counter never exceeds the run of `"loss"` entries that ends the
  trade log.
- While the counter is at 3 or more, the halt ends one hour after the latest
  trade.
- The balance always equals 100 plus the results of the logged trades.
- The cache cleanup never changes the answer, the count or the clock of a
  later request whose cache duration is at most 600 seconds.
- The call counter stays within 30, with one exception. A call landing
  exactly 60 seconds after the window opened, with the budget spent, triggers
  neither the strict `> 60` reset nor the strict `> 0` sleep, and is
  counted as the 31st (`Fetcher.ThirtyFirstCallAtWindowEdge`).
- A NaN fast EMA blocks every signal (`Signals.NaNFastEmaNoSignal`). This
  matters if the indicator library returns NaN for an EMA given fewer closes
  than its period: the analysis passes at most six 5-minute closes to EMAs
  of period 8 and 21, so under that convention no signal would ever fire.

## Model

| member | source | states |
|---|---|---|
| Config.ConfigOf | bot.py:39-76 | the pair table: a pip is ten price increments at the pair's precision, the fast EMA period is positive and shorter than the slow one, and every call weighs at least 1 (the EMA periods and the weight are table entries the bot never reads) |
| Config.RewardExceedsRisk | bot.py:39-76 | every pair's pip size is positive, its profit distance exceeds its loss distance, its volume threshold exceeds 1 and its maximum spread is positive |
| Config.Upper | bot.py:614 | upper-casing keeps the length and leaves no lower-case ASCII letter |
| Config.UpperIdempotent | bot.py:614 | upper-casing an upper-cased text changes nothing |
| Config.NamesAreUpper | bot.py:614-617 | every pair name is its own upper-case form, so typing the exact name selects that pair |
| Config.ParsePair | bot.py:614-617 | a typed pair is accepted exactly when its upper-cased text is one of the pair names, and then it is that pair |
| Config.ParseAcceptsAnyCase | bot.py:614-617 | any spelling whose upper-cased form is a pair name selects that pair |
| Sessions.UtcHour | bot.py:231-232 | the hour is the one whose 3600-second slot holds the timestamp's second of the day |
| Sessions.SessionsAt | bot.py:392-395 | the overlap flag is set exactly when London and New York both are; Tokyo never coincides with another session; some session is open exactly in market hours |
| Sessions.MarketHours | bot.py:233 | market hours lie within hours 0-19 and exclude hour 6 |
| Sessions.MarketHoursIsSessionUnion | bot.py:233 | the market-hours test is exactly the union of the Tokyo, London and New York flags of lines 392-394 |
| Sessions.MarketHoursOfDay | bot.py:233 | within a day, market hours are all hours except 6 and 20-23 |
| Sessions.OverlapIsLondonAndNewYork | bot.py:392-395 | the overlap flag is set exactly when both London and New York are open |
| Sessions.HourSixAllClosed | bot.py:392-395 | at hour 6 no session flag is set and the market is closed |
| Engine.SelectPairs | bot.py:410-421 | only configured pairs are polled; none exactly when no session is open; all in the overlap; XAUUSD and GBPJPY but no EURUSD in New York outside the overlap; EURUSD and GBPJPY but no XAUUSD in London alone; only GBPJPY in Tokyo |
| Engine.GbpJpyPolledInEverySession | bot.py:410-419 | GBPJPY is polled whenever any session flag is set |
| Engine.PollingMatchesMarketHours | bot.py:410-421 | with flags of the current hour, some pair is polled exactly when the risk gate's market-hours test passes |
| Engine.SoftBudgetExhausted | bot.py:426 | while the soft valve is open, the count is below the hard limit of 30 |
| Engine.SoftBudgetThreshold | bot.py:426 | a pair is skipped exactly when 24 or more calls were made in the window |
| Fetcher.WindowRolled | bot.py:140-142 | more than 60 s since the window opened resets the counter and opens the window now; otherwise nothing changes |
| Fetcher.MustWait | bot.py:145-147 | the call sleeps only with 30 or more calls made and the window's end still in the future |
| Fetcher.AdmitClock | bot.py:144-151 | the budget check never moves the clock backwards |
| Fetcher.Admitted | bot.py:144-151 | the budget check keeps the cache and never raises the counter |
| Fetcher.CacheHit | bot.py:154-156 | a cache hit needs a non-empty key that is present in the cache |
| Fetcher.Serve | bot.py:137-183 | the returned clock is not before the call; a failed call leaves the state as the budget check left it; a None answer that changed the state came from a `null` body; the counter rises by at most one |
| Fetcher.UnderBudgetNeverWaits | bot.py:145 | fewer than 30 calls in the window: no sleep and no state change from the budget check |
| Fetcher.SpentBudgetWaitsForRollover | bot.py:145-151 | with 30 calls made inside the window, the call sleeps to the window's end and starts a new window there with count 0 |
| Fetcher.CacheHitSkipsProvider | bot.py:153-157 | a fresh keyed entry is returned without consulting the provider; counter and cache stay as the budget check left them; the served entry is younger than the duration |
| Fetcher.SuccessCountsOnce | bot.py:164-176 | a successful fetch, `null` body included, returns the decoded body, adds exactly one to the counter, and overwrites the key's cache entry (stamped now) only when a key is given |
| Fetcher.NullBodyCountedLikeSuccess | bot.py:164-176 | a successful call whose body is JSON `null` answers None just as a failure does, but is counted once more than a failure and, with a key, cached as None |
| Fetcher.FailureChangesNothing | bot.py:178-183 | a failed fetch returns None and changes neither counter nor cache |
| Fetcher.CountStaysWithinLimit | bot.py:140-175 | a counter within 30 stays within 30, unless the call lands exactly 60 s after the window opened |
| Fetcher.ThirtyFirstCallAtWindowEdge | bot.py:140-151 | at exactly 60 s with 30 calls made, neither the reset nor the sleep happens and the counter reaches 31 |
| Fetcher.CacheRoundTrip | bot.py:153-173 | after a keyed successful fetch, a later same-key call within the duration returns the same data whatever the provider says, and is not counted |
| Fetcher.StaleKeys | bot.py:679-681 | the stale keys are exactly the cached keys whose entries are more than 600 s old |
| Fetcher.Cleaned | bot.py:683-684 | the cleaned cache keeps exactly the non-stale keys with their entries unchanged |
| Fetcher.CleanedSize | bot.py:683-686 | the number of removed entries is the number of stale entries |
| Fetcher.CleanupIdempotent | bot.py:674-684 | a second cleanup at the same time removes nothing more |
| Fetcher.CleanupLeavesNothingStale | bot.py:679-684 | after a cleanup no entry is more than 600 s old |
| Fetcher.CleanupInvisibleToRequests | bot.py:674-684 | for requests with duration at most 600 s made after it, the cleanup changes neither answer, nor counter, nor clock |
| Risk.WinAmount | bot.py:213-215 | the credit for a win is positive |
| Risk.LossAmount | bot.py:216-218 | the debit for a non-win is positive and smaller than the credit for a win |
| Risk.TrailingLosses | bot.py:198-209 | the count is the length of the run of "loss" outcomes ending the log: all of them are losses and the entry before is not |
| Risk.ValidRisk | bot.py:189-218 | in a valid state the counter is at most the log length, and a counter of 3 or more comes with a halt time |
| Risk.InitialRiskValid | bot.py:103-110 | the start-up risk state satisfies the risk invariant |
| Risk.Allowed | bot.py:220-236 | an allowed pair has no halt in force, no future cooldown, and an hour within 0-19 other than 6 |
| Risk.AllowedExactly | bot.py:220-236 | trading is refused exactly when a truthy halt lies in the future, the pair's cooldown lies in the future, or the UTC hour is 6 or 20-23 |
| Risk.AfterOutcome | bot.py:189-218 | the log gains exactly the reported trade, the balance moves by that trade's result, and a non-loss zeroes the counter |
| Risk.LossStep | bot.py:198-218 | one loss raises the counter by exactly 1, sets that pair's cooldown to exactly now + 1800 s and leaves the others, sets the halt to now + 3600 s when the counter reaches 3 and leaves it otherwise, and debits the loss amount |
| Risk.OutcomePreservesValid | bot.py:189-218 | reporting any outcome keeps the invariant: counter within the trailing losses, halt one hour after the latest trade at 3+, balance equal to 100 plus the logged results |
| Risk.OutcomeAppendsOneRecord | bot.py:192-196 | the log grows by exactly the reported trade, the earlier entries unchanged |
| Risk.LossCoolsDownOnlyThatPair | bot.py:199-202 | after a loss the pair may not trade for 30 minutes, and every other pair's cooldown is unchanged |
| Risk.ThreeLossesHalt | bot.py:204-207 | three losses in a row, on any pairs, halt all pairs for the hour after the third |
| Risk.NonLossKeepsGate | bot.py:208-209 | any outcome other than "loss" zeroes the counter, keeps halt and cooldowns, and changes no pair's trading permission |
| Risk.CounterCountsTrailingLosses | bot.py:198-209 | in a valid state the last `consecutive_losses` log entries are all losses |
| Risk.AfterResume | bot.py:605-608 | resume clears the halt and zeroes the counter, keeping cooldowns, log and balance |
| Risk.ResumeLiftsHalt | bot.py:605-608 | resume keeps the invariant and the cooldowns, and afterwards only cooldown and market hours decide |
| Risk.CooldownReplyFor | bot.py:611-623 | usage help exactly when the pair argument is missing, the minutes are not an integer, or the pair is valid but the cooldown's seconds are too large for a float (the addition raises); invalid pair exactly when the name matches no pair; otherwise the parsed pair with the given minutes or 30 |
| Risk.AfterCooldownCommand | bot.py:611-623 | the command changes nothing but the cooldown map, whose keys gain at most the accepted pair |
| Risk.CooldownCommandEffect | bot.py:611-623 | an accepted command sets that pair's cooldown to exactly now plus the minutes in seconds, changes no other cooldown, and blocks the pair until then; a rejected one changes nothing; the invariant holds |
| Signals.NormalizedSpread | bot.py:259-261 | the spread is the ask-bid difference times 100, or times 1000 for XAUUSD, and is non-negative when ask is not below bid |
| Signals.VolumeOk | bot.py:301-304 | with at most one volume there is no prior average, and the surge holds exactly when the single volume is positive |
| Signals.BuyRule | bot.py:309-315 | a firing BUY rule compares numbers only (no NaN): slow EMA < fast EMA < price, 1-min RSI < 35, 5-min RSI > 40, and the volume surge holds |
| Signals.SellRule | bot.py:317-323 | a firing SELL rule has numeric fast EMA and RSIs with price < fast EMA, 5-min RSI < 60, 1-min RSI > 65, and the volume surge holds |
| Signals.Last | bot.py:280 | the slice holds the last n elements, or all of them when there are fewer |
| Signals.VolumesOfLast | bot.py:292-293 | reading the volumes of the last n candles (five here) gives the last n volumes of all candles, so slicing before or after the projection agrees |
| Signals.QuietCandlesNeverSurge | bot.py:292-304 | when every 1-minute candle has volume 0, the volume flag the analysis computes from the last five is false |
| Signals.TrendDirection | bot.py:286 | +1 only when both EMAs are numbers and the fast one is larger; -1 whenever either EMA is NaN; never anything but +1 or -1 |
| Signals.BuySellExclusive | bot.py:309-323 | the BUY and SELL rules never hold together |
| Signals.MakeSignal | bot.py:325-334 | BUY gives tp above and sl below the entry, SELL the reverse, at exactly the pair's profit and loss distances |
| Signals.Analyze | bot.py:242-349 | a signal is only produced for a quote with spread at most the maximum and at least 5 and 3 candles, for the analysed pair at the quote's mid price, with the take-profit and stop-loss of `MakeSignal` for its direction |
| Signals.BuyExactly | bot.py:309-315 | BUY fires exactly when the inputs pass the filters and trend, 5-min RSI > 40, price > fast EMA, volume surge and 1-min RSI < 35 all hold |
| Signals.SellExactly | bot.py:317-323 | SELL fires exactly when the inputs pass the filters and the five mirrored strict conditions hold |
| Signals.BuyBoundariesAreStrict | bot.py:310-314 | 5-min RSI = 40, 1-min RSI = 35 or price = fast EMA each prevent a BUY |
| Signals.SellBoundariesAreStrict | bot.py:318-322 | 5-min RSI = 60, 1-min RSI = 65 or price = fast EMA each prevent a SELL |
| Signals.NaNFastEmaNoSignal | bot.py:284-323 | a NaN fast EMA yields no signal at all |
| Signals.SpreadAtMaximumPasses | bot.py:259-265 | a spread exactly equal to the maximum passes the spread filter |
| Signals.ZeroVolumesNeverSurge | bot.py:301-304 | with all volumes zero the volume surge never holds |
| Signals.VolumeOkOverMean | bot.py:301-304 | with two or more volumes, the surge holds exactly when the last volume times the count of the others beats their sum times the threshold |
| Signals.BuyExample | bot.py:309-347 | a concrete EURUSD input with 1-min RSI 34.9 yields BUY at 1.1 with tp 1.1005 and sl 1.0997 |
| Stats.Wins | bot.py:525 | the win count is at most the log length, equals it exactly when every outcome is "win", and is 0 exactly when none is |
| Stats.WinRate | bot.py:521-526 | the rate lies in 0..100, is 100 on a non-empty log exactly when all trades are wins, and is 0 exactly when none is |
| Stats.PerformanceReport | bot.py:577-592 | no report exactly for an empty log; wins plus losses is the trade count; the profit factor times the losses is the wins, or 99.9 with a 100% win rate when there are no losses; the wins and the rate are `Stats.Wins` and `Stats.WinRate` of the log |
| Bot.CollectStaleKeys | bot.py:677-681 | the collected keys are repetition-free and are exactly the stale keys |
| Bot.ScalpingBot.constructor | bot.py:92-110 | empty cache, zero count with the window opened now, the initial risk state, and the session flags of the current hour |
| Bot.ScalpingBot.ApiRequest | bot.py:137-183 | the new counter, window start and cache, the answer and the clock are those of `Fetcher.Serve` on the old state |
| Bot.ScalpingBot.CleanupCache | bot.py:674-686 | the cache becomes the cleaned cache, and the reported count is the number of stale entries, which is the drop in size |
| Bot.ScalpingBot.UpdatePerformance | bot.py:189-218 | the risk fields become `Risk.AfterOutcome` of the old ones, the invariant is kept, and the breaker notice goes out exactly when the report trips it |
| Bot.ScalpingBot.ResumeTrading | bot.py:605-609 | the halt is cleared and the counter zeroed, cooldowns and everything else untouched, invariant kept |
| Bot.ScalpingBot.CooldownPair | bot.py:611-623 | the reply and the new cooldowns are those of the cooldown command; nothing else changes |
| Bot.ScalpingBot.RefreshSessions | bot.py:385-397 | the session snapshot becomes the flags of the current UTC hour |

## Left out

- Telegram (`Updater`, the command handlers' reply texts, `start`, `subscribe`, `bot_status`, `health_check`), `send_signal_alert` and `notify_users` are I/O. The circuit-breaker broadcast is the `breakerTripped` result of `UpdatePerformance`.
- The Flask server and `health_monitor` are network keep-alive plumbing.
- The threads and the `while self.running` / `time.sleep` loops of `market_session_manager`, `signal_generation_engine` and `run` are left out, including the 10 s, 15 s and 30 s pauses and the hourly cleanup cadence. What is modelled: one pass of the session manager (`RefreshSessions`), the pair selection and soft budget test of one engine cycle, and one cleanup.
- `get_memory_usage` returns a random number between 30 and 70, so its `> 80` branch is never taken. It is not modelled.
- `requests.get`, the request parameters with the API key, the 3 s timeout and JSON decoding are foreign calls. What the provider does is an input of `ApiRequest`: a failure, or a success with its decoded body, where None stands for a JSON `null` body.
- Bot.ScalpingBot.ApiRequest: the source reads `time.time()` several times in one call. The model uses one instant, advanced only by the sleep, so network latency between the request and the cache timestamp is not modelled.
- `get_historical_data` is JSON-to-candle conversion over the fetcher. The candles are inputs of `Signals.Analyze`. Fetching the live quote inside `analyze_pair` is also left out: the quotes are an input.
- `Signals.Analyze` does not model the cached-history branches at bot.py:268-274. They hand the raw cache entry (a dict) on as if it were a candle list, and slicing it raises in the source.
- `Signals.Analyze` also leaves out `analyze_pair`'s call to `check_trading_allowed`. It models what follows that gate; `Risk.Allowed` is the gate itself.
- `talib.EMA` and `talib.RSI` are library calls. Their values are inputs; an indicator is a number or NaN.
- Signals.MakeSignal: entry, take-profit and stop-loss are not rounded to the pair's precision. The signal id, the expiry timestamp and the formatted message are left out.
- Prices and balances are exact rationals, not binary floats. For example, a spread computed in floats may differ from the exact one in the last bits.
- Config.Upper: only ASCII letters are upper-cased. Python's `str.upper` also maps some other characters, for instance the long s to `S`.
- The minutes argument of `/cooldown` is given already parsed (`MinutesArg`). What Python's `int()` accepts is not modelled, including its refusal of more than 4300 digits, which also ends in usage help.
- Pairs form a closed type. Calling `update_performance` or `check_trading_allowed` with an unknown pair raises `KeyError` in the source; that case is not modelled.
- Trade records carry the report time as a number rather than an ISO-8601 string.
- The `api_weight` column of the pair table is carried but unused, as in the source: every call counts as one.
- There is no synchronisation between the bot's threads, which share the cache, the budget and the risk state. Each method is modelled as one atomic step.

=== FILE: bot.dfy ===
/**
 * The bot object: the rate budget and response cache, the risk state and the
 * session snapshot as fields updated in place by its methods. Each method is
 * specified by the pure transition it performs (modules Fetcher, Risk and
 * Sessions).
 */
module Bot {
  import opened Wrappers
  import opened Config
  import opened Sessions
  import opened Fetcher
  import opened Risk

  /** A sequence without repeated elements. */
  ghost predicate Distinct<T>(s: seq<T>) {
    forall i, j :: 0 <= i < j < |s| ==> s[i] != s[j]
  }

  function Elements<T>(s: seq<T>): set<T> {
    set x | x in s
  }

  /** A repetition-free sequence has as many elements as its set. */
  lemma {:induction false} DistinctElements<T>(s: seq<T>)
    requires Distinct(s)
    ensures |Elements(s)| == |s|
  {
    if |s| > 0 {
      var init := s[..|s| - 1];
      DistinctElements(init);
      assert Elements(s) == Elements(init) + {s[|s| - 1]};
      assert s[|s| - 1] !in Elements(init);
    }
  }

  lemma AppendElement<T>(s: seq<T>, x: T)
    ensures Elements(s + [x]) == Elements(s) + {x}
  {
  }

  /** Deleting one more listed key extends the deleted prefix. */
  lemma DeleteNextKey<V>(m: map<string, V>, keys: seq<string>, i: nat)
    requires i < |keys|
    ensures (m - Elements(keys[..i])) - {keys[i]} == m - Elements(keys[..i + 1])
  {
    assert keys[..i + 1] == keys[..i] + [keys[i]];
    AppendElement(keys[..i], keys[i]);
  }

  /** Deleting the stale keys one by one leaves the cleaned cache. */
  lemma RemovingStaleKeysCleans(cache: map<string, CacheEntry>, now: real)
    ensures cache - StaleKeys(cache, now) == Cleaned(cache, now)
  {
  }

  /**
   * The first pass of the cache cleanup: walks the entries and lists, once
   * each, the keys of entries more than 600 seconds old.
   */
  method CollectStaleKeys(cache: map<string, CacheEntry>, now: real) returns (keys: seq<string>)
    ensures Distinct(keys)
    ensures Elements(keys) == StaleKeys(cache, now)
  {
    keys := [];
    var pending := cache.Keys;
    while pending != {}
      invariant pending <= cache.Keys
      invariant Distinct(keys)
      invariant Elements(keys) == StaleKeys(cache, now) - pending
      decreases pending
    {
      var key :| key in pending;
      if now - cache[key].timestamp > CACHE_RETENTION {
        AppendElement(keys, key);
        keys := keys + [key];
      }
      pending := pending - {key};
    }
  }

  class ScalpingBot {
    // call budget and response cache
    var apiCache: map<string, CacheEntry>
    var apiCallCount: nat
    var apiBudgetResetTime: real

    // circuit breaker
    var consecutiveLosses: nat
    var haltedUntil: Option<real>
    var pairCooldowns: map<Pair, real>

    // performance tracking
    var tradeHistory: seq<TradeRecord>
    var startingBalance: real
    var currentBalance: real

    // session snapshot
    var tokyoOpen: bool
    var londonOpen: bool
    var newYorkOpen: bool
    var overlapOpen: bool

    function FetchView(): FetchState
      reads this
    {
      FetchState(apiCallCount, apiBudgetResetTime, apiCache)
    }

    function RiskView(): RiskState
      reads this
    {
      RiskState(consecutiveLosses, haltedUntil, pairCooldowns, tradeHistory, currentBalance)
    }

    function SessionView(): SessionFlags
      reads this
    {
      SessionFlags(tokyoOpen, londonOpen, newYorkOpen, overlapOpen)
    }

    ghost predicate Valid()
      reads this
    {
      startingBalance == STARTING_BALANCE && ValidRisk(RiskView())
    }

    /** The bot at start-up: empty cache and budget window, fresh risk state, sessions of the hour. */
    constructor (now: real)
      ensures Valid()
      ensures FetchView() == FetchState(0, now, map[])
      ensures RiskView() == InitialRisk()
      ensures SessionView() == SessionsAt(UtcHour(now))
    {
      apiCache := map[];
      apiCallCount := 0;
      apiBudgetResetTime := now;
      consecutiveLosses := 0;
      haltedUntil := None;
      pairCooldowns := map[EURUSD := 0.0, XAUUSD := 0.0, GBPJPY := 0.0];
      tradeHistory := [];
      startingBalance := STARTING_BALANCE;
      currentBalance := STARTING_BALANCE;
      var hour := UtcHour(now);
      tokyoOpen := 0 <= hour < 6;
      londonOpen := 7 <= hour < 16;
      newYorkOpen := 12 <= hour < 20;
      overlapOpen := 12 <= hour < 16;
      new;
      InitialRiskValid();
    }

    /**
     * One provider call at time `now`; `response` is what the provider would
     * answer if asked. Returns the answer (None for a failure or a `null`
     * body) and the clock after any sleep.
     */
    method ApiRequest(req: Request, now: real, response: Response) returns (data: Option<Payload>, clock: real)
      modifies this`apiCache, this`apiCallCount, this`apiBudgetResetTime
      ensures var r := Serve(old(FetchView()), req, now, response);
        FetchView() == r.state && data == r.data && clock == r.clock
    {
      clock := now;
      if clock - apiBudgetResetTime > BUDGET_WINDOW {
        apiCallCount := 0;
        apiBudgetResetTime := clock;
      }
      if apiCallCount >= RATE_LIMIT {
        var sleepTime := BUDGET_WINDOW - (clock - apiBudgetResetTime);
        if sleepTime > 0.0 {
          clock := clock + sleepTime;
          apiCallCount := 0;
          apiBudgetResetTime := clock;
        }
      }
      if KeyGiven(req.cacheKey) && req.cacheKey.value in apiCache {
        var cached := apiCache[req.cacheKey.value];
        if clock - cached.timestamp < req.cacheDuration {
          return cached.data, clock;
        }
      }
      match response {
        case Failed =>
          data := None;
        case Succeeded(body) =>
          if KeyGiven(req.cacheKey) {
            apiCache := apiCache[req.cacheKey.value := CacheEntry(body, clock)];
          }
          apiCallCount := apiCallCount + 1;
          data := body;
      }
    }

    /** Purges the entries more than 600 seconds old and reports how many went. */
    method CleanupCache(now: real) returns (removed: nat)
      modifies this`apiCache
      ensures apiCache == Cleaned(old(apiCache), now)
      ensures removed == |StaleKeys(old(apiCache), now)| == |old(apiCache)| - |apiCache|
    {
      var cache := apiCache;
      var keysToDelete := CollectStaleKeys(cache, now);
      var i := 0;
      assert Elements(keysToDelete[..0]) == {};
      assert cache - {} == cache;
      while i < |keysToDelete|
        invariant 0 <= i <= |keysToDelete|
        invariant apiCache == cache - Elements(keysToDelete[..i])
      {
        DeleteNextKey(cache, keysToDelete, i);
        apiCache := apiCache - {keysToDelete[i]};
        i := i + 1;
      }
      assert keysToDelete[..i] == keysToDelete;
      RemovingStaleKeysCleans(cache, now);
      DistinctElements(keysToDelete);
      CleanedSize(cache, now);
      removed := |keysToDelete|;
    }

    /**
     * Records a trade outcome. Reports whether the circuit breaker tripped,
     * which is when the bot broadcasts its halt notice.
     */
    method UpdatePerformance(pair: Pair, outcome: string, now: real) returns (breakerTripped: bool)
      requires Valid()
      modifies this`consecutiveLosses, this`haltedUntil, this`pairCooldowns, this`tradeHistory, this`currentBalance
      ensures Valid()
      ensures RiskView() == AfterOutcome(old(RiskView()), pair, outcome, now)
      ensures breakerTripped == BreakerTrips(old(RiskView()), outcome)
    {
      ghost var next := AfterOutcome(RiskView(), pair, outcome, now);
      OutcomePreservesValid(RiskView(), pair, outcome, now);
      tradeHistory := tradeHistory + [TradeRecord(pair, now, outcome)];
      breakerTripped := false;
      if outcome == "loss" {
        consecutiveLosses := consecutiveLosses + 1;
        pairCooldowns := pairCooldowns[pair := now + LOSS_COOLDOWN];
        if consecutiveLosses >= BREAKER_LOSSES {
          haltedUntil := Some(now + HALT_DURATION);
          breakerTripped := true;
        }
      } else {
        consecutiveLosses := 0;
      }
      if outcome == "win" {
        currentBalance := currentBalance + WinAmount(pair);
      } else {
        currentBalance := currentBalance - LossAmount(pair);
      }
      assert RiskView() == next;
    }

    /** The manual resume command. */
    method ResumeTrading()
      requires Valid()
      modifies this`haltedUntil, this`consecutiveLosses
      ensures Valid()
      ensures RiskView() == AfterResume(old(RiskView()))
    {
      ResumeLiftsHalt(RiskView(), EURUSD, 0.0);
      haltedUntil := None;
      consecutiveLosses := 0;
    }

    /** The manual cooldown command, with its reply to the user. */
    method CooldownPair(pairArg: Option<string>, minutesArg: MinutesArg, now: real) returns (reply: CooldownReply)
      requires Valid()
      modifies this`pairCooldowns
      ensures Valid()
      ensures reply == CooldownReplyFor(pairArg, minutesArg)
      ensures RiskView() == AfterCooldownCommand(old(RiskView()), pairArg, minutesArg, now)
    {
      CooldownCommandEffect(RiskView(), pairArg, minutesArg, now, now);
      if pairArg.None? || minutesArg.Unparsable? {
        return Usage;
      }
      var minutes := if minutesArg.Given? then minutesArg.minutes else DEFAULT_COOLDOWN_MINUTES;
      var pair := ParsePair(pairArg.value);
      if pair.None? {
        return InvalidPair;
      }
      if FloatOverflows(minutes * 60) {
        // the addition to the clock raises; the catch-all handler answers with usage help
        return Usage;
      }
      pairCooldowns := pairCooldowns[pair.value := now + (minutes * 60) as real];
      reply := Activated(pair.value, minutes);
    }

    /** One pass of the session manager: recompute the snapshot for the current hour. */
    method RefreshSessions(now: real)
      modifies this`tokyoOpen, this`londonOpen, this`newYorkOpen, this`overlapOpen
      ensures SessionView() == SessionsAt(UtcHour(now))
    {
      var hour := UtcHour(now);
      tokyoOpen := 0 <= hour < 6;
      londonOpen := 7 <= hour < 16;
      newYorkOpen := 12 <= hour < 20;
      overlapOpen := 12 <= hour < 16;
    }
  }
}

=== FILE: config.dfy ===
/**
 * The bot's static configuration: the traded pairs, the per-pair strategy
 * table and the provider's call budget.
 */
module Config {
  import opened Wrappers

  /** The three instruments the bot trades. */
  datatype Pair = EURUSD | XAUUSD | GBPJPY

  /** The pairs in the order the bot lists them. */
  const PAIRS: seq<Pair> := [EURUSD, XAUUSD, GBPJPY]

  /** Calls to the market-data provider allowed per 60-second window. */
  const RATE_LIMIT: nat := 30

  /** One row of the strategy table. Prices are exact rationals here. */
  datatype PairConfig = PairConfig(
    precision: nat,
    pipSize: real,
    minProfitPips: nat,
    maxLossPips: nat,
    volumeThreshold: real,
    rsiPeriod: nat,
    emaFast: nat,
    emaSlow: nat,
    maxSpread: real,
    apiWeight: nat)

  /** Ten to the power n, as a real. */
  function Pow10(n: nat): real {
    if n == 0 then 1.0 else 10.0 * Pow10(n - 1)
  }

  /**
   * The pair's configuration. A pip is ten price increments at the pair's
   * quote precision, the fast EMA is shorter than the slow one, and every
   * request costs at least one unit of budget. The EMA periods and the
   * request weight are carried as the table lists them but never read: the
   * analysis uses fixed periods of 8 and 21, and every call counts as one.
   */
  function ConfigOf(p: Pair): (c: PairConfig)
    ensures c.pipSize * Pow10(c.precision) == 10.0
    ensures 0 < c.emaFast < c.emaSlow
    ensures c.apiWeight >= 1
  {
    match p
    case EURUSD => PairConfig(5, 0.0001, 5, 3, 1.2, 3, 5, 13, 0.8, 1)
    case XAUUSD => PairConfig(2, 0.1, 40, 25, 1.3, 4, 8, 21, 0.35, 2)
    case GBPJPY => PairConfig(3, 0.01, 7, 4, 1.25, 4, 6, 18, 1.2, 1)
  }

  /** Every pair's take-profit distance is strictly larger than its stop-loss distance. */
  lemma RewardExceedsRisk(p: Pair)
    ensures ConfigOf(p).pipSize > 0.0
    ensures ConfigOf(p).minProfitPips > ConfigOf(p).maxLossPips > 0
    ensures ConfigOf(p).volumeThreshold > 1.0 && ConfigOf(p).maxSpread > 0.0
  {
  }

  /** The symbol under which the pair is known to users and to the provider. */
  function Name(p: Pair): string {
    match p
    case EURUSD => "EURUSD"
    case XAUUSD => "XAUUSD"
    case GBPJPY => "GBPJPY"
  }

  /** Upper-casing of one character, ASCII letters only. */
  function UpperChar(c: char): (u: char)
    ensures 'a' <= c <= 'z' ==> 'A' <= u <= 'Z' && u as int == c as int - 32
    ensures !('a' <= c <= 'z') ==> u == c
  {
    if 'a' <= c <= 'z' then (c as int - 32) as char else c
  }

  /** Upper-casing of a string, character by character; no lower-case ASCII letter is left. */
  function Upper(s: string): (u: string)
    ensures |u| == |s|
    ensures forall i :: 0 <= i < |s| ==> u[i] == UpperChar(s[i])
    ensures forall i :: 0 <= i < |u| ==> !('a' <= u[i] <= 'z')
  {
    seq(|s|, i requires 0 <= i < |s| => UpperChar(s[i]))
  }

  /** Upper-casing twice is upper-casing once. */
  lemma UpperIdempotent(s: string)
    ensures Upper(Upper(s)) == Upper(s)
  {
    var u := Upper(s);
    assert forall i :: 0 <= i < |u| ==> UpperChar(u[i]) == u[i];
  }

  /** The pair names are already upper-case, so each one parses as itself. */
  lemma NamesAreUpper(p: Pair)
    ensures Upper(Name(p)) == Name(p)
    ensures ParsePair(Name(p)) == Some(p)
  {
    var n := Name(p);
    assert forall i :: 0 <= i < |n| ==> !('a' <= n[i] <= 'z');
    assert Upper(n) == n;
  }

  /**
   * The pair a user typed, upper-cased first; None when the upper-cased text is
   * none of the pair names.
   */
  function ParsePair(arg: string): (r: Option<Pair>)
    ensures r.Some? ==> Name(r.value) == Upper(arg)
    ensures r.None? ==> forall p: Pair :: Name(p) != Upper(arg)
  {
    var u := Upper(arg);
    if u == Name(EURUSD) then Some(EURUSD)
    else if u == Name(XAUUSD) then Some(XAUUSD)
    else if u == Name(GBPJPY) then Some(GBPJPY)
    else None
  }

  /** Any spelling of a pair name in lower or mixed case is accepted. */
  lemma ParseAcceptsAnyCase(p: Pair, arg: string)
    requires Upper(arg) == Name(p)
    ensures ParsePair(arg) == Some(p)
  {
  }
}

=== FILE: engine.dfy ===
/**
 * One cycle of the signal-generation loop, reduced to its selection logic:
 * which pairs are polled under the current session snapshot, and when a pair
 * is skipped because the call budget is nearly spent.
 */
module Engine {
  import opened Config
  import opened Sessions

  /**
   * The pairs polled in one cycle: all of them in the London/New York
   * overlap, else the New York, London or Tokyo list, else none (the loop
   * then idles).
   */
  function SelectPairs(f: SessionFlags): (r: seq<Pair>)
    ensures forall p :: p in r ==> p in PAIRS
    ensures |r| == 0 <==> !(f.overlap || f.newYork || f.london || f.tokyo)
    ensures f.overlap ==> r == PAIRS
    ensures !f.overlap && f.newYork ==> EURUSD !in r && XAUUSD in r && GBPJPY in r
    ensures !f.overlap && !f.newYork && f.london ==> XAUUSD !in r && EURUSD in r && GBPJPY in r
    ensures !f.overlap && !f.newYork && !f.london && f.tokyo ==> r == [GBPJPY]
  {
    if f.overlap then PAIRS
    else if f.newYork then [XAUUSD, GBPJPY]
    else if f.london then [EURUSD, GBPJPY]
    else if f.tokyo then [GBPJPY]
    else []
  }

  /** GBPJPY is polled whenever any session is open. */
  lemma GbpJpyPolledInEverySession(f: SessionFlags)
    requires f.overlap || f.newYork || f.london || f.tokyo
    ensures GBPJPY in SelectPairs(f)
  {
  }

  /**
   * With a snapshot taken at the current hour, some pair is polled exactly
   * when the risk gate's market-hours test passes.
   */
  lemma PollingMatchesMarketHours(hour: int)
    ensures |SelectPairs(SessionsAt(hour))| > 0 <==> MarketHours(hour)
  {
    MarketHoursIsSessionUnion(hour);
    OverlapIsLondonAndNewYork(hour);
  }

  /**
   * The soft budget valve: a pair is skipped for this cycle once the calls
   * made in the current window reach 80% of the limit (24 of 30).
   */
  predicate SoftBudgetExhausted(callCount: nat)
    ensures !SoftBudgetExhausted(callCount) ==> callCount < RATE_LIMIT
  {
    callCount as real >= RATE_LIMIT as real * 0.8
  }

  lemma SoftBudgetThreshold(callCount: nat)
    ensures SoftBudgetExhausted(callCount) <==> callCount >= 24
  {
  }
}

=== FILE: fetcher.dfy ===
/**
 * The rate-budgeted, cached access to the market-data provider, as pure
 * functions of the fetcher's state. The provider's answer is an input: a
 * failure (any transport, status or decoding error), or a success with its
 * decoded body, which is None when the body is JSON `null`.
 */
module Fetcher {
  import opened Wrappers
  import opened Config

  /** A decoded response body other than `null`; its structure is not modelled. */
  type Payload = string

  /** What the provider does when asked: fail, or answer with a decoded body (None for `null`). */
  datatype Response = Failed | Succeeded(body: Option<Payload>)

  /** Length of the budget window, in seconds. */
  const BUDGET_WINDOW: real := 60.0

  /** Entries older than this many seconds are purged by the cache cleanup. */
  const CACHE_RETENTION: real := 600.0

  /** A cached answer; a `null` body is cached as None like any other. */
  datatype CacheEntry = CacheEntry(data: Option<Payload>, timestamp: real)

  /** The call counter, the start of its window, and the response cache. */
  datatype FetchState = FetchState(callCount: nat, resetTime: real, cache: map<string, CacheEntry>)

  /** A request's cache key (None for none) and how long a cached answer stays usable. */
  datatype Request = Request(cacheKey: Option<string>, cacheDuration: real)

  /** The new state, the answer, and the clock once the call returns (after any sleep). */
  datatype Reply = Reply(state: FetchState, data: Option<Payload>, clock: real)

  /** A cache key takes part only when it is truthy: present and non-empty. */
  predicate KeyGiven(key: Option<string>) {
    key.Some? && key.value != ""
  }

  /** The window reset: strictly more than 60 seconds since the window opened. */
  function WindowRolled(s: FetchState, now: real): (r: FetchState)
    ensures r.cache == s.cache
    ensures now - s.resetTime > BUDGET_WINDOW ==> r.callCount == 0 && r.resetTime == now
    ensures now - s.resetTime <= BUDGET_WINDOW ==> r == s
  {
    if now - s.resetTime > BUDGET_WINDOW then s.(callCount := 0, resetTime := now) else s
  }

  /** The budget is spent and the time left in the window is positive: the call sleeps. */
  predicate MustWait(s: FetchState, now: real)
    ensures MustWait(s, now) ==> s.callCount >= RATE_LIMIT && now < s.resetTime + BUDGET_WINDOW
  {
    s.callCount >= RATE_LIMIT && BUDGET_WINDOW - (now - s.resetTime) > 0.0
  }

  /** The clock once the budget check is passed: after the sleep, the window's end. */
  function AdmitClock(s: FetchState, now: real): (t: real)
    ensures t >= now
  {
    var r := WindowRolled(s, now);
    if MustWait(r, now) then r.resetTime + BUDGET_WINDOW else now
  }

  /** The state once the budget check is passed: a sleep opens a fresh window. */
  function Admitted(s: FetchState, now: real): (a: FetchState)
    ensures a.cache == s.cache
    ensures a.callCount <= s.callCount
  {
    var r := WindowRolled(s, now);
    if MustWait(r, now) then r.(callCount := 0, resetTime := AdmitClock(s, now)) else r
  }

  /** A usable cache entry: keyed, present, and younger than the request's duration. */
  predicate CacheHit(s: FetchState, req: Request, t: real)
    ensures CacheHit(s, req, t) ==> req.cacheKey.Some? && req.cacheKey.value != "" && req.cacheKey.value in s.cache
  {
    KeyGiven(req.cacheKey) && req.cacheKey.value in s.cache
    && t - s.cache[req.cacheKey.value].timestamp < req.cacheDuration
  }

  /**
   * One call: window reset, then the budget check, then the cache, and only
   * then the provider. A successful fetch is cached under the key (if any)
   * and counted, even when its body is `null`; a failed one changes nothing.
   * The caller sees None both for a failure and for a `null` body.
   */
  function Serve(s: FetchState, req: Request, now: real, response: Response): (r: Reply)
    ensures r.clock >= now
    ensures response.Failed? ==> r.state == Admitted(s, now)
    ensures r.data.None? ==> r.state == Admitted(s, now) || response == Succeeded(None)
    ensures r.state.callCount <= Admitted(s, now).callCount + 1
  {
    var a := Admitted(s, now);
    var t := AdmitClock(s, now);
    if CacheHit(a, req, t) then
      Reply(a, a.cache[req.cacheKey.value].data, t)
    else
      match response
      case Failed => Reply(a, None, t)
      case Succeeded(body) =>
        var cache := if KeyGiven(req.cacheKey) then a.cache[req.cacheKey.value := CacheEntry(body, t)] else a.cache;
        Reply(FetchState(a.callCount + 1, a.resetTime, cache), body, t)
  }

  /** Fewer than 30 calls in the current window: the call never waits. */
  lemma UnderBudgetNeverWaits(s: FetchState, now: real)
    requires WindowRolled(s, now).callCount < RATE_LIMIT
    ensures AdmitClock(s, now) == now
    ensures Admitted(s, now) == WindowRolled(s, now)
  {
  }

  /**
   * With the budget spent and the window not yet over, the call sleeps until
   * the window's end and starts a new window there with a zero count.
   */
  lemma SpentBudgetWaitsForRollover(s: FetchState, now: real)
    requires s.callCount >= RATE_LIMIT
    requires s.resetTime <= now < s.resetTime + BUDGET_WINDOW
    ensures AdmitClock(s, now) == s.resetTime + BUDGET_WINDOW > now
    ensures Admitted(s, now) == FetchState(0, s.resetTime + BUDGET_WINDOW, s.cache)
  {
  }

  /**
   * A cache hit answers with the stored data, leaves the counter and cache as
   * the budget check left them, and does not depend on the provider at all.
   */
  lemma CacheHitSkipsProvider(s: FetchState, req: Request, now: real, response: Response, other: Response)
    requires CacheHit(Admitted(s, now), req, AdmitClock(s, now))
    ensures Serve(s, req, now, response).data == s.cache[req.cacheKey.value].data
    ensures Serve(s, req, now, response).state == Admitted(s, now)
    ensures AdmitClock(s, now) - s.cache[req.cacheKey.value].timestamp < req.cacheDuration
    ensures Serve(s, req, now, response) == Serve(s, req, now, other)
  {
  }

  /**
   * A fetch that reaches the provider and succeeds is counted exactly once and
   * overwrites the cache entry for its key; other entries are kept. This
   * holds for a `null` body too (p is None).
   */
  lemma SuccessCountsOnce(s: FetchState, req: Request, now: real, p: Option<Payload>)
    requires !CacheHit(Admitted(s, now), req, AdmitClock(s, now))
    ensures var r := Serve(s, req, now, Succeeded(p));
      && r.data == p
      && r.state.callCount == Admitted(s, now).callCount + 1
      && r.state.resetTime == Admitted(s, now).resetTime
      && (KeyGiven(req.cacheKey) ==> r.state.cache == s.cache[req.cacheKey.value := CacheEntry(p, AdmitClock(s, now))])
      && (!KeyGiven(req.cacheKey) ==> r.state.cache == s.cache)
  {
  }

  /** A failed fetch answers None and leaves counter and cache as the budget check left them. */
  lemma FailureChangesNothing(s: FetchState, req: Request, now: real)
    requires !CacheHit(Admitted(s, now), req, AdmitClock(s, now))
    ensures Serve(s, req, now, Failed) == Reply(Admitted(s, now), None, AdmitClock(s, now))
  {
  }

  /**
   * A `null` body answers None exactly as a failure does, yet unlike a
   * failure it is counted, and with a key it is cached, so later calls within
   * the duration answer None from the cache without asking the provider.
   */
  lemma NullBodyCountedLikeSuccess(s: FetchState, req: Request, now: real)
    requires !CacheHit(Admitted(s, now), req, AdmitClock(s, now))
    ensures var r, f := Serve(s, req, now, Succeeded(None)), Serve(s, req, now, Failed);
      && r.data == f.data == None
      && r.state.callCount == f.state.callCount + 1
      && (KeyGiven(req.cacheKey) ==> req.cacheKey.value in r.state.cache && r.state.cache[req.cacheKey.value].data.None?)
  {
  }

  /**
   * The counter never passes the limit, provided it started within it and the
   * call does not land exactly 60 seconds after the window opened.
   */
  lemma {:induction false} CountStaysWithinLimit(s: FetchState, req: Request, now: real, response: Response)
    requires s.callCount <= RATE_LIMIT
    requires now - WindowRolled(s, now).resetTime != BUDGET_WINDOW
    ensures Serve(s, req, now, response).state.callCount <= RATE_LIMIT
  {
    var r := WindowRolled(s, now);
    if r.callCount >= RATE_LIMIT {
      assert now - r.resetTime < BUDGET_WINDOW;
      assert MustWait(r, now);
      assert Admitted(s, now).callCount == 0;
    }
  }

  /**
   * The exception: exactly 60 seconds after the window opened with the budget
   * spent, neither the reset (which needs more than 60) nor the sleep (which
   * needs a positive remainder) happens, and a 31st call is counted.
   */
  lemma ThirtyFirstCallAtWindowEdge()
    ensures var r := Serve(FetchState(RATE_LIMIT, 0.0, map[]), Request(None, 60.0), 60.0, Succeeded(Some("{}")));
      r.state.callCount == RATE_LIMIT + 1 && r.clock == 60.0
  {
  }

  /**
   * A cached answer is served again: after a fetch stored under a key, a
   * later call with that key whose admitted clock is within the new request's
   * duration returns the same data, whatever the provider would say.
   */
  lemma CacheRoundTrip(s: FetchState, req: Request, now: real, p: Option<Payload>, req2: Request, later: real, response2: Response)
    requires KeyGiven(req.cacheKey) && req2.cacheKey == req.cacheKey
    requires !CacheHit(Admitted(s, now), req, AdmitClock(s, now))
    requires var s1 := Serve(s, req, now, Succeeded(p)).state;
      AdmitClock(s1, later) - AdmitClock(s, now) < req2.cacheDuration
    ensures var s1 := Serve(s, req, now, Succeeded(p)).state;
      Serve(s1, req2, later, response2).data == p
      && Serve(s1, req2, later, response2).state.callCount == Admitted(s1, later).callCount
  {
  }

  /** The keys the cleanup removes: entries more than 600 seconds old. */
  function StaleKeys(cache: map<string, CacheEntry>, now: real): (ks: set<string>)
    ensures ks <= cache.Keys
    ensures forall k :: k in ks <==> k in cache && now - cache[k].timestamp > CACHE_RETENTION
  {
    set k | k in cache && now - cache[k].timestamp > CACHE_RETENTION
  }

  /** The cache once stale entries are purged. */
  function Cleaned(cache: map<string, CacheEntry>, now: real): (c: map<string, CacheEntry>)
    ensures c.Keys == cache.Keys - StaleKeys(cache, now)
    ensures forall k :: k in c ==> c[k] == cache[k]
  {
    map k | k in cache && !(now - cache[k].timestamp > CACHE_RETENTION) :: cache[k]
  }

  /** The cleanup removes exactly as many entries as were stale. */
  lemma {:induction false} CleanedSize(cache: map<string, CacheEntry>, now: real)
    ensures |Cleaned(cache, now)| == |cache| - |StaleKeys(cache, now)|
  {
    var c := Cleaned(cache, now);
    var stale := StaleKeys(cache, now);
    assert c.Keys + stale == cache.Keys;
    assert c.Keys * stale == {};
    assert |c.Keys| == |c|;
    assert |cache.Keys| == |cache|;
  }

  /** Cleaning twice at the same time changes nothing further. */
  lemma CleanupIdempotent(cache: map<string, CacheEntry>, now: real)
    ensures Cleaned(Cleaned(cache, now), now) == Cleaned(cache, now)
  {
  }

  /** After a cleanup no entry is more than 600 seconds old. */
  lemma CleanupLeavesNothingStale(cache: map<string, CacheEntry>, now: real)
    ensures StaleKeys(Cleaned(cache, now), now) == {}
  {
  }

  /**
   * The cleanup is invisible to every later call whose cache duration is at
   * most 600 seconds: the same answer, the same count and the same clock.
   */
  lemma {:induction false} CleanupInvisibleToRequests(s: FetchState, cleanupAt: real, req: Request, now: real, response: Response)
    requires req.cacheDuration <= CACHE_RETENTION
    requires cleanupAt <= now
    ensures var s' := s.(cache := Cleaned(s.cache, cleanupAt));
      var r, r' := Serve(s, req, now, response), Serve(s', req, now, response);
      r'.data == r.data && r'.clock == r.clock && r'.state.callCount == r.state.callCount
  {
    var s' := s.(cache := Cleaned(s.cache, cleanupAt));
    var a, a' := Admitted(s, now), Admitted(s', now);
    var t := AdmitClock(s, now);
    assert AdmitClock(s', now) == t;
    assert a' == a.(cache := Cleaned(s.cache, cleanupAt));
    if CacheHit(a, req, t) {
      var k := req.cacheKey.value;
      assert cleanupAt - s.cache[k].timestamp <= t - s.cache[k].timestamp < CACHE_RETENTION;
      assert k in a'.cache;
      assert CacheHit(a', req, t);
    } else {
      assert !CacheHit(a', req, t);
    }
  }
}

=== FILE: risk.dfy ===
/**
 * The risk gate: the consecutive-loss circuit breaker, per-pair cooldowns,
 * the trade log and the simulated balance, as pure transitions of one
 * process-wide risk state, and the trading-allowed predicate over it.
 */
module Risk {
  import opened Wrappers
  import opened Config
  import opened Sessions

  /** Seconds a pair is cooled down after a loss. */
  const LOSS_COOLDOWN: real := 1800.0
  /** Seconds trading is halted once the breaker trips. */
  const HALT_DURATION: real := 3600.0
  /** Consecutive losses that trip the breaker. */
  const BREAKER_LOSSES: nat := 3
  const STARTING_BALANCE: real := 100.0
  /** Cooldown of the manual command when no duration is given. */
  const DEFAULT_COOLDOWN_MINUTES: int := 30

  /** One reported trade outcome; the outcome is free text ("win", "loss", ...). */
  datatype TradeRecord = TradeRecord(pair: Pair, time: real, outcome: string)

  datatype RiskState = RiskState(
    consecutiveLosses: nat,
    haltedUntil: Option<real>,
    pairCooldowns: map<Pair, real>,
    tradeHistory: seq<TradeRecord>,
    currentBalance: real)

  /** Every pair starts with cooldown 0, nothing halted, no trades and a balance of 100. */
  function InitialRisk(): RiskState {
    RiskState(0, None, map[EURUSD := 0.0, XAUUSD := 0.0, GBPJPY := 0.0], [], STARTING_BALANCE)
  }

  /** Balance credited for a win: the take-profit distance, times 100. */
  function WinAmount(p: Pair): (a: real)
    ensures a > 0.0
  {
    ConfigOf(p).minProfitPips as real * ConfigOf(p).pipSize * 100.0
  }

  /** Balance debited for any outcome other than a win: the stop-loss distance, times 100. */
  function LossAmount(p: Pair): (a: real)
    ensures 0.0 < a < WinAmount(p)
  {
    RewardExceedsRisk(p);
    ConfigOf(p).maxLossPips as real * ConfigOf(p).pipSize * 100.0
  }

  function Pnl(r: TradeRecord): real {
    if r.outcome == "win" then WinAmount(r.pair) else -LossAmount(r.pair)
  }

  /** The sum of the balance changes of the logged trades. */
  function NetPnl(h: seq<TradeRecord>): real {
    if |h| == 0 then 0.0 else NetPnl(h[..|h| - 1]) + Pnl(h[|h| - 1])
  }

  /** The length of the run of "loss" outcomes at the end of the log. */
  function TrailingLosses(h: seq<TradeRecord>): (n: nat)
    ensures n <= |h|
    ensures forall i :: |h| - n <= i < |h| ==> h[i].outcome == "loss"
    ensures n < |h| ==> h[|h| - 1 - n].outcome != "loss"
  {
    if |h| == 0 || h[|h| - 1].outcome != "loss" then 0
    else TrailingLosses(h[..|h| - 1]) + 1
  }

  /**
   * The invariant of the risk state: every pair has a cooldown; the loss
   * counter never exceeds the run of losses that ends the log; while the
   * counter is at three or more the halt ends an hour after the latest trade;
   * and the balance is the starting balance plus the logged trades' results.
   */
  ghost predicate ValidRisk(s: RiskState)
    ensures ValidRisk(s) ==> s.consecutiveLosses <= |s.tradeHistory|
    ensures ValidRisk(s) && s.consecutiveLosses >= BREAKER_LOSSES ==> s.haltedUntil.Some?
  {
    && (forall p: Pair :: p in s.pairCooldowns)
    && s.consecutiveLosses <= TrailingLosses(s.tradeHistory)
    && (s.consecutiveLosses >= BREAKER_LOSSES ==>
          |s.tradeHistory| > 0 && s.haltedUntil == Some(s.tradeHistory[|s.tradeHistory| - 1].time + HALT_DURATION))
    && s.currentBalance == STARTING_BALANCE + NetPnl(s.tradeHistory)
  }

  lemma InitialRiskValid()
    ensures ValidRisk(InitialRisk())
  {
    forall p: Pair
      ensures p in InitialRisk().pairCooldowns
    {
      match p
      case EURUSD =>
      case XAUUSD =>
      case GBPJPY =>
    }
  }

  /** The global halt is in force: set, truthy (non-zero) and still in the future. */
  predicate Halted(s: RiskState, now: real) {
    s.haltedUntil.Some? && s.haltedUntil.value != 0.0 && now < s.haltedUntil.value
  }

  /** Whether the pair may trade now: no halt, no cooldown, and within market hours. */
  predicate Allowed(s: RiskState, pair: Pair, now: real)
    requires pair in s.pairCooldowns
    ensures Allowed(s, pair, now) ==> !Halted(s, now) && s.pairCooldowns[pair] <= now && UtcHour(now) < 20 && UtcHour(now) != 6
  {
    if Halted(s, now) then false
    else if s.pairCooldowns[pair] > now then false
    else MarketHours(UtcHour(now))
  }

  /**
   * Trading is refused exactly when the halt is in force, the pair is cooling
   * down, or the UTC hour is 6 or 20 and later.
   */
  lemma AllowedExactly(s: RiskState, pair: Pair, now: real)
    requires pair in s.pairCooldowns
    ensures !Allowed(s, pair, now) <==>
      || (s.haltedUntil.Some? && s.haltedUntil.value != 0.0 && now < s.haltedUntil.value)
      || s.pairCooldowns[pair] > now
      || UtcHour(now) == 6 || UtcHour(now) >= 20
  {
    MarketHoursOfDay(UtcHour(now));
  }

  /**
   * A reported outcome: logged; a loss bumps the counter, cools the pair down
   * for 30 minutes and, from the third consecutive loss on, halts trading for
   * an hour; any other outcome clears the counter. A win credits the balance,
   * every other outcome debits it.
   */
  function AfterOutcome(s: RiskState, pair: Pair, outcome: string, now: real): (r: RiskState)
    ensures r.tradeHistory == s.tradeHistory + [TradeRecord(pair, now, outcome)]
    ensures r.currentBalance == s.currentBalance + Pnl(TradeRecord(pair, now, outcome))
    ensures outcome != "loss" ==> r.consecutiveLosses == 0
  {
    var history := s.tradeHistory + [TradeRecord(pair, now, outcome)];
    var balance := if outcome == "win" then s.currentBalance + WinAmount(pair) else s.currentBalance - LossAmount(pair);
    if outcome == "loss" then
      var losses := s.consecutiveLosses + 1;
      RiskState(
        losses,
        if losses >= BREAKER_LOSSES then Some(now + HALT_DURATION) else s.haltedUntil,
        s.pairCooldowns[pair := now + LOSS_COOLDOWN],
        history,
        balance)
    else
      RiskState(0, s.haltedUntil, s.pairCooldowns, history, balance)
  }

  /**
   * One loss: the counter rises by exactly one; the pair's cooldown becomes
   * exactly 30 minutes from now and no other cooldown changes; the halt
   * becomes an hour from now when the counter has reached three, and is left
   * as it was otherwise; the balance drops by the pair's loss amount.
   */
  lemma LossStep(s: RiskState, pair: Pair, now: real)
    ensures var r := AfterOutcome(s, pair, "loss", now);
      && r.consecutiveLosses == s.consecutiveLosses + 1
      && r.pairCooldowns == s.pairCooldowns[pair := now + LOSS_COOLDOWN]
      && (r.consecutiveLosses >= BREAKER_LOSSES ==> r.haltedUntil == Some(now + HALT_DURATION))
      && (r.consecutiveLosses < BREAKER_LOSSES ==> r.haltedUntil == s.haltedUntil)
      && r.currentBalance == s.currentBalance - LossAmount(pair)
  {
  }

  /** The outcome trips the circuit breaker (and its notification goes out). */
  predicate BreakerTrips(s: RiskState, outcome: string) {
    outcome == "loss" && s.consecutiveLosses + 1 >= BREAKER_LOSSES
  }

  lemma {:induction false} OutcomePreservesValid(s: RiskState, pair: Pair, outcome: string, now: real)
    requires ValidRisk(s)
    ensures ValidRisk(AfterOutcome(s, pair, outcome, now))
  {
    var h := s.tradeHistory + [TradeRecord(pair, now, outcome)];
    assert h[..|h| - 1] == s.tradeHistory;
    assert NetPnl(h) == NetPnl(s.tradeHistory) + Pnl(TradeRecord(pair, now, outcome));
    if outcome == "loss" {
      assert TrailingLosses(h) == TrailingLosses(s.tradeHistory) + 1;
    }
  }

  /** The log grows by exactly the reported trade. */
  lemma OutcomeAppendsOneRecord(s: RiskState, pair: Pair, outcome: string, now: real)
    ensures var t := AfterOutcome(s, pair, outcome, now);
      |t.tradeHistory| == |s.tradeHistory| + 1
      && t.tradeHistory[..|s.tradeHistory|] == s.tradeHistory
      && t.tradeHistory[|s.tradeHistory|] == TradeRecord(pair, now, outcome)
  {
  }

  /**
   * A loss keeps the pair from trading for the next 30 minutes, whatever else
   * holds, and leaves every other pair's cooldown as it was.
   */
  lemma LossCoolsDownOnlyThatPair(s: RiskState, pair: Pair, now: real, t: real)
    requires ValidRisk(s)
    requires now <= t < now + LOSS_COOLDOWN
    ensures var s' := AfterOutcome(s, pair, "loss", now);
      && !Allowed(s', pair, t)
      && (forall q :: q != pair ==> s'.pairCooldowns[q] == s.pairCooldowns[q])
  {
  }

  /**
   * Three losses in a row, on any pairs, halt all trading for the hour after
   * the third one.
   */
  lemma ThreeLossesHalt(s: RiskState, p1: Pair, p2: Pair, p3: Pair, t1: real, t2: real, t3: real, q: Pair, t: real)
    requires ValidRisk(s)
    requires 0.0 <= t3 <= t < t3 + HALT_DURATION
    ensures var s3 := AfterOutcome(AfterOutcome(AfterOutcome(s, p1, "loss", t1), p2, "loss", t2), p3, "loss", t3);
      s3.haltedUntil == Some(t3 + HALT_DURATION) && s3.consecutiveLosses >= BREAKER_LOSSES && !Allowed(s3, q, t)
  {
  }

  /**
   * Any outcome other than a loss clears the counter and leaves halt and
   * cooldowns alone, so it never changes whether a pair may trade.
   */
  lemma NonLossKeepsGate(s: RiskState, pair: Pair, outcome: string, now: real, q: Pair, t: real)
    requires ValidRisk(s)
    requires outcome != "loss"
    ensures var s' := AfterOutcome(s, pair, outcome, now);
      && s'.consecutiveLosses == 0
      && s'.haltedUntil == s.haltedUntil && s'.pairCooldowns == s.pairCooldowns
      && Allowed(s', q, t) == Allowed(s, q, t)
  {
  }

  /** In a valid state the counter only counts losses that end the log. */
  lemma {:induction false} CounterCountsTrailingLosses(s: RiskState, i: int)
    requires ValidRisk(s)
    requires |s.tradeHistory| - s.consecutiveLosses <= i < |s.tradeHistory|
    ensures s.tradeHistory[i].outcome == "loss"
  {
    assert |s.tradeHistory| - TrailingLosses(s.tradeHistory) <= i;
  }

  /** The manual resume: the halt is lifted and the counter cleared; cooldowns stay. */
  function AfterResume(s: RiskState): (r: RiskState)
    ensures r.consecutiveLosses == 0 && r.haltedUntil.None?
    ensures r.pairCooldowns == s.pairCooldowns && r.tradeHistory == s.tradeHistory && r.currentBalance == s.currentBalance
  {
    s.(consecutiveLosses := 0, haltedUntil := None)
  }

  /** After a resume, only the pair's cooldown and market hours decide. */
  lemma ResumeLiftsHalt(s: RiskState, pair: Pair, now: real)
    requires ValidRisk(s)
    ensures ValidRisk(AfterResume(s))
    ensures AfterResume(s).pairCooldowns == s.pairCooldowns
    ensures Allowed(AfterResume(s), pair, now) <==> s.pairCooldowns[pair] <= now && MarketHours(UtcHour(now))
  {
  }

  /** The minutes argument of the manual cooldown command. */
  datatype MinutesArg = Omitted | Given(minutes: int) | Unparsable

  datatype CooldownReply = Activated(pair: Pair, minutes: int) | InvalidPair | Usage

  /**
   * The smallest integer magnitude that rounds past the largest double
   * (2^1024 - 2^970): adding such an integer to a float raises OverflowError.
   */
  const FLOAT_OVERFLOW: nat := 179769313486231580793728971405303415079934132710037826936173778980444968292764750946649017977587207096330286416692887910946555547851940402630657488671505820681908902000708383676273854845817711531764475730270069855571366959622842914819860834936475292719074168444365510704342711559699508093042880177904174497792

  predicate FloatOverflows(x: int) {
    x >= FLOAT_OVERFLOW || -x >= FLOAT_OVERFLOW
  }

  /** The minutes the command uses: the given ones, or 30 by default. */
  function MinutesOf(minutesArg: MinutesArg): int {
    if minutesArg.Given? then minutesArg.minutes else DEFAULT_COOLDOWN_MINUTES
  }

  /**
   * The manual cooldown command's answer: usage help when the pair argument is
   * missing or the minutes are not an integer, the error for an unknown pair,
   * usage help again when the cooldown's seconds overflow a float (the
   * addition raises and the catch-all handler answers), otherwise the pair
   * and the duration (30 minutes by default).
   */
  function CooldownReplyFor(pairArg: Option<string>, minutesArg: MinutesArg): (r: CooldownReply)
    ensures r.Usage? <==> pairArg.None? || minutesArg.Unparsable?
                          || (ParsePair(pairArg.value).Some? && FloatOverflows(MinutesOf(minutesArg) * 60))
    ensures r.Activated? ==> ParsePair(pairArg.value) == Some(r.pair) && !FloatOverflows(r.minutes * 60)
    ensures r.Activated? && minutesArg.Omitted? ==> r.minutes == DEFAULT_COOLDOWN_MINUTES
    ensures r.Activated? && minutesArg.Given? ==> r.minutes == minutesArg.minutes
    ensures r.InvalidPair? <==> pairArg.Some? && !minutesArg.Unparsable? && ParsePair(pairArg.value).None?
  {
    if pairArg.None? || minutesArg.Unparsable? then Usage
    else
      var minutes := MinutesOf(minutesArg);
      match ParsePair(pairArg.value)
      case Some(p) => if FloatOverflows(minutes * 60) then Usage else Activated(p, minutes)
      case None => InvalidPair
  }

  /** The state after the manual cooldown command. */
  function AfterCooldownCommand(s: RiskState, pairArg: Option<string>, minutesArg: MinutesArg, now: real): (r: RiskState)
    ensures r == s.(pairCooldowns := r.pairCooldowns)
    ensures r.pairCooldowns.Keys == s.pairCooldowns.Keys + (if CooldownReplyFor(pairArg, minutesArg).Activated? then {CooldownReplyFor(pairArg, minutesArg).pair} else {})
  {
    match CooldownReplyFor(pairArg, minutesArg)
    case Activated(p, minutes) => s.(pairCooldowns := s.pairCooldowns[p := now + (minutes * 60) as real])
    case _ => s
  }

  /**
   * A successful manual cooldown blocks that pair for the given minutes and
   * touches nothing else; a rejected command changes no state.
   */
  lemma CooldownCommandEffect(s: RiskState, pairArg: Option<string>, minutesArg: MinutesArg, now: real, t: real)
    requires ValidRisk(s)
    ensures var s' := AfterCooldownCommand(s, pairArg, minutesArg, now);
      && ValidRisk(s')
      && (!CooldownReplyFor(pairArg, minutesArg).Activated? ==> s' == s)
      && (CooldownReplyFor(pairArg, minutesArg).Activated? ==>
            var r := CooldownReplyFor(pairArg, minutesArg);
            && s' == s.(pairCooldowns := s'.pairCooldowns)
            && s'.pairCooldowns[r.pair] == now + (r.minutes * 60) as real
            && (forall q :: q != r.pair ==> s'.pairCooldowns[q] == s.pairCooldowns[q])
            && (now <= t < now + (r.minutes * 60) as real ==> !Allowed(s', r.pair, t)))
  {
  }
}

=== FILE: sessions.dfy ===
/**
 * Market sessions: which trading sessions are open at a given UTC hour, and
 * the market-hours test the risk gate applies.
 */
module Sessions {

  /** An hour of the UTC day. */
  type Hour = h: int | 0 <= h < 24

  /**
   * The UTC hour of a Unix timestamp (seconds). Unix time has no leap
   * seconds, so every day is 86400 seconds long.
   */
  function UtcHour(now: real): (h: Hour)
    ensures 3600 * h <= now.Floor % 86400 < 3600 * (h + 1)
  {
    (now.Floor % 86400) / 3600
  }

  /** The session snapshot the bot keeps and shows in its status. */
  datatype SessionFlags = SessionFlags(tokyo: bool, london: bool, newYork: bool, overlap: bool)

  function SessionsAt(hour: int): (f: SessionFlags)
    ensures f.overlap <==> f.london && f.newYork
    ensures !(f.tokyo && (f.london || f.newYork))
    ensures MarketHours(hour) <==> f.tokyo || f.london || f.newYork
  {
    SessionFlags(
      0 <= hour < 6,
      7 <= hour < 16,
      12 <= hour < 20,
      12 <= hour < 16)
  }

  /** The market-hours condition checked before a pair may trade. */
  predicate MarketHours(hour: int)
    ensures MarketHours(hour) ==> 0 <= hour < 20 && hour != 6
  {
    0 <= hour < 6 || 7 <= hour < 16 || 12 <= hour < 20
  }

  /** Market hours are exactly the union of the Tokyo, London and New York sessions. */
  lemma MarketHoursIsSessionUnion(hour: int)
    ensures MarketHours(hour) <==> SessionsAt(hour).tokyo || SessionsAt(hour).london || SessionsAt(hour).newYork
  {
  }

  /** Over a day, the market is closed exactly in hour 6 and from hour 20 on. */
  lemma MarketHoursOfDay(hour: Hour)
    ensures MarketHours(hour) <==> hour != 6 && hour < 20
  {
  }

  /** The overlap session is the time both London and New York are open. */
  lemma OverlapIsLondonAndNewYork(hour: int)
    ensures SessionsAt(hour).overlap <==> SessionsAt(hour).london && SessionsAt(hour).newYork
  {
  }

  /** Hour 6 lies between the Tokyo close and the London open: no flag is set. */
  lemma HourSixAllClosed()
    ensures SessionsAt(6) == SessionFlags(false, false, false, false)
    ensures !MarketHours(6)
  {
  }
}

=== FILE: signals.dfy ===
/**
 * The signal decision rule: from the live quote, the 1-minute and 5-minute
 * candles and the indicator values, a BUY or SELL signal with its take-profit
 * and stop-loss, or no signal.
 */
module Signals {
  import opened Wrappers
  import opened Config

  /** A live quote as the provider reports it. */
  datatype Quote = Quote(mid: real, bid: real, ask: real)

  datatype Candle = Candle(date: string, open: real, high: real, low: real, close: real, volume: real)

  /** An indicator value: a float that may be NaN, against which every comparison is false. */
  datatype Indicator = NaN | Num(value: real)

  /**
   * The indicator values, as the bot's indicator library computes them: fast
   * and slow EMA and a 7-period RSI over the last six 5-minute closes, and
   * the pair's RSI over the last five 1-minute closes.
   */
  datatype Indicators = Indicators(emaFast: Indicator, emaSlow: Indicator, rsi5: Indicator, rsi: Indicator)

  datatype Direction = Buy | Sell

  /** A signal; prices are exact (the rounding to the pair's precision is not modelled). */
  datatype Signal = Signal(pair: Pair, direction: Direction, entry: real, takeProfit: real, stopLoss: real, confidence: real)

  const CONFIDENCE: real := 0.85

  /** `a > b` on floats. */
  predicate Above(a: Indicator, b: Indicator) {
    a.Num? && b.Num? && a.value > b.value
  }

  /** `a > x` on floats, with x a number. */
  predicate Exceeds(a: Indicator, x: real) {
    a.Num? && a.value > x
  }

  /** `a < x` on floats, with x a number. */
  predicate Undercuts(a: Indicator, x: real) {
    a.Num? && a.value < x
  }

  /** The spread in the pair's pip scale: times 100, and times 10 more for gold. */
  function NormalizedSpread(pair: Pair, q: Quote): (r: real)
    ensures q.bid <= q.ask ==> r >= 0.0
    ensures r == (q.ask - q.bid) * (if pair == XAUUSD then 1000.0 else 100.0)
  {
    var spread := (q.ask - q.bid) * 100.0;
    if pair == XAUUSD then spread * 10.0 else spread
  }

  /** The last n elements (all of them when there are fewer), as Python's `s[-n:]` for positive n. */
  function Last<T>(s: seq<T>, n: nat): (r: seq<T>)
    requires n > 0
    ensures |r| == if |s| <= n then |s| else n
    ensures forall i :: 0 <= i < |r| ==> r[i] == s[|s| - |r| + i]
  {
    if |s| <= n then s else s[|s| - n..]
  }

  function Volumes(candles: seq<Candle>): (v: seq<real>)
    ensures |v| == |candles|
    ensures forall i :: 0 <= i < |v| ==> v[i] == candles[i].volume
  {
    seq(|candles|, i requires 0 <= i < |candles| => candles[i].volume)
  }

  /** Taking the last n candles and then their volumes is taking the last n volumes. */
  lemma VolumesOfLast(candles: seq<Candle>, n: nat)
    requires n > 0
    ensures Volumes(Last(candles, n)) == Last(Volumes(candles), n)
  {
    var l := Volumes(Last(candles, n));
    var r := Last(Volumes(candles), n);
    assert |l| == |r|;
    assert forall i :: 0 <= i < |l| ==> l[i] == r[i];
  }

  function Sum(xs: seq<real>): real {
    if |xs| == 0 then 0.0 else Sum(xs[..|xs| - 1]) + xs[|xs| - 1]
  }

  /** The average of all but the last volume; 0 when there is at most one volume. */
  function PriorAverage(volumes: seq<real>): real {
    if |volumes| > 1 then Sum(volumes[..|volumes| - 1]) / (|volumes| - 1) as real else 0.0
  }

  /** The volume surge: the latest volume beats the threshold times the prior average. */
  predicate VolumeOk(pair: Pair, volumes: seq<real>)
    ensures |volumes| <= 1 ==> (VolumeOk(pair, volumes) <==> |volumes| == 1 && volumes[0] > 0.0)
  {
    var current := if |volumes| > 0 then volumes[|volumes| - 1] else 0.0;
    current > PriorAverage(volumes) * ConfigOf(pair).volumeThreshold
  }

  /** +1 when the fast EMA is above the slow one, -1 otherwise (NaN included). */
  function TrendDirection(ind: Indicators): (d: int)
    ensures d == 1 <==> Above(ind.emaFast, ind.emaSlow)
    ensures d == 1 || d == -1
    ensures d == 1 ==> ind.emaFast.Num? && ind.emaSlow.Num? && ind.emaFast.value > ind.emaSlow.value
    ensures ind.emaFast.NaN? || ind.emaSlow.NaN? ==> d == -1
  {
    if Above(ind.emaFast, ind.emaSlow) then 1 else -1
  }

  /**
   * BUY: uptrend, 5-minute RSI above 40, price above the fast EMA, volume
   * surge, and 1-minute RSI below 35, all strict.
   */
  predicate BuyRule(price: real, ind: Indicators, volumeOk: bool)
    ensures BuyRule(price, ind, volumeOk) ==>
      && volumeOk && ind.emaFast.Num? && ind.emaSlow.Num? && ind.rsi5.Num? && ind.rsi.Num?
      && ind.emaSlow.value < ind.emaFast.value < price && ind.rsi.value < 35.0 < 40.0 < ind.rsi5.value
  {
    && TrendDirection(ind) > 0
    && Exceeds(ind.rsi5, 40.0)
    && Undercuts(ind.emaFast, price)
    && volumeOk
    && Undercuts(ind.rsi, 35.0)
  }

  /**
   * SELL, the mirror: downtrend, 5-minute RSI below 60, price below the fast
   * EMA, volume surge, and 1-minute RSI above 65.
   */
  predicate SellRule(price: real, ind: Indicators, volumeOk: bool)
    ensures SellRule(price, ind, volumeOk) ==>
      && volumeOk && ind.emaFast.Num? && ind.rsi5.Num? && ind.rsi.Num?
      && price < ind.emaFast.value && ind.rsi5.value < 60.0 < 65.0 < ind.rsi.value
  {
    && TrendDirection(ind) < 0
    && Undercuts(ind.rsi5, 60.0)
    && Exceeds(ind.emaFast, price)
    && volumeOk
    && Exceeds(ind.rsi, 65.0)
  }

  /** The two rules never hold together, so trying SELL only after BUY loses nothing. */
  lemma BuySellExclusive(price: real, ind: Indicators, volumeOk: bool)
    ensures !(BuyRule(price, ind, volumeOk) && SellRule(price, ind, volumeOk))
  {
  }

  /**
   * The signal at the given price: take-profit and stop-loss move away from
   * the entry by the pair's profit and loss distances, in the trade's favour
   * and against it.
   */
  function MakeSignal(pair: Pair, direction: Direction, price: real): (sig: Signal)
    ensures sig.pair == pair && sig.direction == direction && sig.entry == price && sig.confidence == CONFIDENCE
    ensures direction == Buy ==> sig.takeProfit > sig.entry > sig.stopLoss
    ensures direction == Sell ==> sig.takeProfit < sig.entry < sig.stopLoss
    ensures direction == Buy ==> sig.takeProfit - sig.entry == ConfigOf(pair).minProfitPips as real * ConfigOf(pair).pipSize
    ensures direction == Sell ==> sig.entry - sig.takeProfit == ConfigOf(pair).minProfitPips as real * ConfigOf(pair).pipSize
    ensures direction == Buy ==> sig.entry - sig.stopLoss == ConfigOf(pair).maxLossPips as real * ConfigOf(pair).pipSize
    ensures direction == Sell ==> sig.stopLoss - sig.entry == ConfigOf(pair).maxLossPips as real * ConfigOf(pair).pipSize
  {
    var c := ConfigOf(pair);
    RewardExceedsRisk(pair);
    var profit := c.minProfitPips as real * c.pipSize;
    var loss := c.maxLossPips as real * c.pipSize;
    if direction == Buy then Signal(pair, Buy, price, price + profit, price - loss, CONFIDENCE)
    else Signal(pair, direction, price, price - profit, price + loss, CONFIDENCE)
  }

  /**
   * The inputs reach the decision rule: a quote was returned, its spread is
   * at most the pair's maximum, and there are at least five 5-minute and
   * three 1-minute candles.
   */
  predicate Eligible(pair: Pair, quotes: seq<Quote>, tf1: seq<Candle>, tf5: seq<Candle>) {
    |quotes| > 0 && NormalizedSpread(pair, quotes[0]) <= ConfigOf(pair).maxSpread
    && |tf5| >= 5 && |tf1| >= 3
  }

  /**
   * The analysis of one pair. `quotes` is empty when the live-price call
   * failed or returned no quotes; a candle sequence is empty when its fetch
   * failed (both read as false in the source).
   */
  function Analyze(pair: Pair, quotes: seq<Quote>, tf1: seq<Candle>, tf5: seq<Candle>, ind: Indicators): (r: Option<Signal>)
    ensures r.Some? ==> Eligible(pair, quotes, tf1, tf5) && r.value.pair == pair && r.value.entry == quotes[0].mid
    ensures r.Some? ==> r.value == MakeSignal(pair, r.value.direction, quotes[0].mid)
  {
    if |quotes| == 0 then None
    else
      var price := quotes[0].mid;
      if NormalizedSpread(pair, quotes[0]) > ConfigOf(pair).maxSpread then None
      else if |tf1| == 0 || |tf5| == 0 then None
      else if |Last(tf5, 6)| < 5 then None
      else if |Last(tf1, 5)| < 3 then None
      else
        var volumeOk := VolumeOk(pair, Volumes(Last(tf1, 5)));
        if BuyRule(price, ind, volumeOk) then Some(MakeSignal(pair, Buy, price))
        else if SellRule(price, ind, volumeOk) then Some(MakeSignal(pair, Sell, price))
        else None
  }

  /** The volume flag the analysis uses: over the last five 1-minute candles. */
  function EntryVolumeOk(pair: Pair, tf1: seq<Candle>): bool {
    VolumeOk(pair, Volumes(Last(tf1, 5)))
  }

  /** BUY fires exactly when the inputs are eligible and all five BUY conditions hold. */
  lemma BuyExactly(pair: Pair, quotes: seq<Quote>, tf1: seq<Candle>, tf5: seq<Candle>, ind: Indicators)
    ensures (var r := Analyze(pair, quotes, tf1, tf5, ind); r.Some? && r.value.direction == Buy)
      <==> Eligible(pair, quotes, tf1, tf5) && BuyRule(quotes[0].mid, ind, EntryVolumeOk(pair, tf1))
  {
  }

  /** SELL fires exactly when the inputs are eligible and all five SELL conditions hold. */
  lemma SellExactly(pair: Pair, quotes: seq<Quote>, tf1: seq<Candle>, tf5: seq<Candle>, ind: Indicators)
    ensures (var r := Analyze(pair, quotes, tf1, tf5, ind); r.Some? && r.value.direction == Sell)
      <==> Eligible(pair, quotes, tf1, tf5) && SellRule(quotes[0].mid, ind, EntryVolumeOk(pair, tf1))
  {
    if |quotes| > 0 {
      BuySellExclusive(quotes[0].mid, ind, EntryVolumeOk(pair, tf1));
    }
  }

  /** Every comparison is strict: any one condition sitting exactly on its boundary prevents a BUY. */
  lemma BuyBoundariesAreStrict(pair: Pair, quotes: seq<Quote>, tf1: seq<Candle>, tf5: seq<Candle>, ind: Indicators)
    requires |quotes| > 0
    requires ind.rsi5 == Num(40.0) || ind.rsi == Num(35.0) || ind.emaFast == Num(quotes[0].mid)
    ensures var r := Analyze(pair, quotes, tf1, tf5, ind); !(r.Some? && r.value.direction == Buy)
  {
  }

  /** The SELL comparisons are strict as well. */
  lemma SellBoundariesAreStrict(pair: Pair, quotes: seq<Quote>, tf1: seq<Candle>, tf5: seq<Candle>, ind: Indicators)
    requires |quotes| > 0
    requires ind.rsi5 == Num(60.0) || ind.rsi == Num(65.0) || ind.emaFast == Num(quotes[0].mid)
    ensures var r := Analyze(pair, quotes, tf1, tf5, ind); !(r.Some? && r.value.direction == Sell)
  {
  }

  /**
   * A NaN fast EMA blocks every signal: the trend reads as down, and the price
   * comparison against it is false. This is the case for every analysis if the
   * indicator library returns NaN for an EMA given fewer closes than its period.
   */
  lemma NaNFastEmaNoSignal(pair: Pair, quotes: seq<Quote>, tf1: seq<Candle>, tf5: seq<Candle>, ind: Indicators)
    requires ind.emaFast == NaN
    ensures Analyze(pair, quotes, tf1, tf5, ind) == None
  {
  }

  /** A spread exactly at the maximum is not rejected; only a larger one is. */
  lemma SpreadAtMaximumPasses(pair: Pair, q: Quote, quotes: seq<Quote>, tf1: seq<Candle>, tf5: seq<Candle>, ind: Indicators)
    requires |tf5| >= 5 && |tf1| >= 3
    requires NormalizedSpread(pair, q) == ConfigOf(pair).maxSpread
    ensures Eligible(pair, [q] + quotes, tf1, tf5)
  {
  }

  /** With no volume data (missing volumes read as 0) there is never a volume surge. */
  lemma {:induction false} ZeroVolumesNeverSurge(pair: Pair, volumes: seq<real>)
    requires forall i :: 0 <= i < |volumes| ==> volumes[i] == 0.0
    ensures !VolumeOk(pair, volumes)
  {
    if |volumes| > 1 {
      SumOfZeros(volumes[..|volumes| - 1]);
    }
  }

  /** Entry candles whose volumes are all zero never give the volume surge the BUY and SELL rules need. */
  lemma QuietCandlesNeverSurge(pair: Pair, tf1: seq<Candle>)
    requires forall i :: 0 <= i < |tf1| ==> tf1[i].volume == 0.0
    ensures !EntryVolumeOk(pair, tf1)
  {
    VolumesOfLast(tf1, 5);
    ZeroVolumesNeverSurge(pair, Last(Volumes(tf1), 5));
  }

  lemma {:induction false} SumOfZeros(xs: seq<real>)
    requires forall i :: 0 <= i < |xs| ==> xs[i] == 0.0
    ensures Sum(xs) == 0.0
  {
    if |xs| > 0 {
      SumOfZeros(xs[..|xs| - 1]);
    }
  }

  /** The surge test compares the latest volume with the mean of the others. */
  lemma VolumeOkOverMean(pair: Pair, volumes: seq<real>)
    requires |volumes| >= 2
    ensures VolumeOk(pair, volumes) <==>
      volumes[|volumes| - 1] * (|volumes| - 1) as real > Sum(volumes[..|volumes| - 1]) * ConfigOf(pair).volumeThreshold
  {
    var n := (|volumes| - 1) as real;
    var avg := Sum(volumes[..|volumes| - 1]) / n;
    assert avg * n == Sum(volumes[..|volumes| - 1]);
    var th := ConfigOf(pair).volumeThreshold;
    assert volumes[|volumes| - 1] > avg * th <==> volumes[|volumes| - 1] * n > avg * th * n;
  }

  /**
   * A concrete EURUSD BUY: an entry RSI of 34.9 (just past the boundary)
   * fires, with take-profit 5 pips above and stop-loss 3 pips below.
   */
  lemma BuyExample()
    ensures
      var candle := Candle("", 1.1, 1.1, 1.1, 1.1, 1.0);
      var surge := Candle("", 1.1, 1.1, 1.1, 1.1, 10.0);
      Analyze(EURUSD, [Quote(1.1, 1.09999, 1.10001)],
              [candle, candle, candle, candle, surge],
              [candle, candle, candle, candle, candle, candle],
              Indicators(Num(1.09), Num(1.08), Num(41.0), Num(34.9)))
      == Some(Signal(EURUSD, Buy, 1.1, 1.1005, 1.0997, 0.85))
  {
    var candle := Candle("", 1.1, 1.1, 1.1, 1.1, 1.0);
    var surge := Candle("", 1.1, 1.1, 1.1, 1.1, 10.0);
    var tf1 := [candle, candle, candle, candle, surge];
    assert Last(tf1, 5) == tf1;
    var v := Volumes(tf1);
    assert v == [1.0, 1.0, 1.0, 1.0, 10.0];
    assert v[..4] == [1.0, 1.0, 1.0, 1.0];
    assert Sum(v[..4]) == 4.0 by {
      assert [1.0, 1.0, 1.0, 1.0][..3] == [1.0, 1.0, 1.0];
      assert [1.0, 1.0, 1.0][..2] == [1.0, 1.0];
      assert [1.0, 1.0][..1] == [1.0];
      assert [1.0][..0] == [];
    }
    assert VolumeOk(EURUSD, v);
  }
}

=== FILE: stats.dfy ===
/** Performance statistics over the trade log: win count, win rate and profit factor. */
module Stats {
  import opened Wrappers
  import opened Risk

  /** The number of logged trades whose outcome is exactly "win". */
  function Wins(h: seq<TradeRecord>): (n: nat)
    ensures n <= |h|
    ensures n == |h| <==> forall i :: 0 <= i < |h| ==> h[i].outcome == "win"
    ensures n == 0 <==> forall i :: 0 <= i < |h| ==> h[i].outcome != "win"
  {
    if |h| == 0 then 0
    else Wins(h[..|h| - 1]) + (if h[|h| - 1].outcome == "win" then 1 else 0)
  }

  /** The win rate in percent; 0 for an empty log. */
  function WinRate(h: seq<TradeRecord>): (rate: real)
    ensures 0.0 <= rate <= 100.0
    ensures |h| > 0 ==> (rate == 100.0 <==> forall i :: 0 <= i < |h| ==> h[i].outcome == "win")
    ensures rate == 0.0 <==> forall i :: 0 <= i < |h| ==> h[i].outcome != "win"
  {
    if |h| == 0 then 0.0
    else
      var w, n := Wins(h) as real, |h| as real;
      PercentBounds(w, n);
      (w / n) * 100.0
  }

  lemma MulPositive(a: real, b: real)
    requires a > 0.0 && b > 0.0
    ensures a * b > 0.0
  {
  }

  lemma RatioAtMostOne(w: real, n: real)
    requires 0.0 <= w <= n && n > 0.0
    ensures 0.0 <= w / n <= 1.0
  {
    var q := w / n;
    assert q * n == w;
    if q > 1.0 {
      MulPositive(q - 1.0, n);
    }
    if q < 0.0 {
      MulPositive(-q, n);
    }
  }

  lemma PercentBounds(w: real, n: real)
    requires 0.0 <= w <= n && n > 0.0
    ensures 0.0 <= (w / n) * 100.0 <= 100.0
    ensures (w / n) * 100.0 == 100.0 <==> w == n
    ensures (w / n) * 100.0 == 0.0 <==> w == 0.0
  {
    RatioAtMostOne(w, n);
    var q := w / n;
    assert q * n == w;
  }

  /**
   * The performance report: None ("no trades recorded yet") for an empty
   * log; otherwise every non-win counts as a loss, and the profit factor is
   * wins over losses, or 99.9 when there are no losses.
   */
  datatype Report = Report(trades: nat, wins: nat, losses: nat, winRate: real, profitFactor: real)

  function PerformanceReport(h: seq<TradeRecord>): (r: Option<Report>)
    ensures r.None? <==> |h| == 0
    ensures r.Some? ==> r.value.trades == |h| == r.value.wins + r.value.losses
    ensures r.Some? && r.value.losses > 0 ==> r.value.profitFactor * r.value.losses as real == r.value.wins as real
    ensures r.Some? && r.value.losses == 0 ==> r.value.profitFactor == 99.9 && r.value.winRate == 100.0
    ensures r.Some? ==> r.value.wins == Wins(h) && r.value.winRate == WinRate(h)
  {
    if |h| == 0 then None
    else
      var wins := Wins(h);
      var losses := |h| - wins;
      var factor := if losses > 0 then (wins as real * 1.0) / losses as real else 99.9;
      Some(Report(|h|, wins, losses, WinRate(h), factor))
  }
}

=== FILE: wrappers.dfy ===
/** The optional-value type used wherever the bot works with Python's `None`. */
module Wrappers {

  datatype Option<+T> = None | Some(value: T)
}
